=== FILE: README.md ===
# Jason plans and conflict descriptors, in Dafny

This project models the AgentSpeak `Plan` of the Jason BDI platform together
with its conflict descriptors (`Conflict`). A plan has an optional label, a
triggering event, an optional context and a body. It also has three flags
(`isAtomic`, `hasBreakpoint`, `isAllUnifs`), a flag saying whether it is used
as a term, the set of conflict descriptors declared by its label's
annotations, and a registry of conflicting plan identifiers filled in at run
time.

Layout:

- `lang.dfy`: Java-level notions. These are null (`Option`), exceptions
  (`Result`, and `Run` for a statement that may complete abruptly after
  changing state), and 32-bit `int` arithmetic for `String.hashCode`.
- `terms.dfy`: the AgentSpeak terms a plan is built from, as one closed
  datatype. It also has their substitution (`capply`) and their text.
- `conflict.dfy`: the `Conflict` value: getters, `equals`, `hashCode` and
  `clone`.
- `annotations.dfy`: the specification functions of label scanning.
  - `ToConflict` is `toConflict`.
  - `AddConflicts` is the loop of `processConflictSet`.
  - `ScanAnnot`/`ScanAnnots`/`ScanLabel` are the annotation loop of
    `setLabel`.
  - Lemmas characterise these functions: when each raises, what it adds,
    and how the flags are set.
- `plan_view.dfy`: a plan's state as a value (`PlanView`), plus what the
  plan's non-mutating operations compute from it.
  - `PlanEquals` is `equals`.
  - `CopyOf` and `CapplyOf` describe the copies.
  - `Render` is `toASString`. It is built from a layout over already
    printed pieces.
- `plan.dfy`: the `Plan` class.
  - Sub-terms are held through immutable `TermNode` objects, so sharing a
    sub-term (as `cloneOnlyBody` does) can be told apart from holding a
    fresh copy.
  - Every method is proved against the functions above. For example,
    `SetLabel`'s loop yields exactly `ScanLabel` of the old state, and
    `Capply` builds a fresh plan whose view is `CapplyOf` of this one.

Behaviour is modelled as the code does it, including its quirks:

- `setLabel` adds to the flags and descriptors the plan already has. It
  does not replace them.
- The `isAtomic` flag is never raised, because the assignment is commented
  out. The class invariant `Valid` records this.
- A term `toConflict` does not understand adds null to the conflict set.
  Each of the three copies then dereferences that null and raises
  `NullPointerException`.
- An empty string inside `conflict(...)` raises
  `StringIndexOutOfBoundsException`. The descriptors added before it stay
  in the set. The parser's constructor then makes no plan.
- `equals` checks the context in one direction only
  (`Plan.java:286-287`). A plan without a context never equals one with a
  context. A plan with a context is compared with one without a context
  on trigger and body alone. So `equals` is not symmetric;
  `PlanEqualsAsymmetry` characterises exactly when symmetry fails.
- `new Plan()` leaves trigger and body null, and `setTerm` can store null
  at any position. `Valid` only constrains the sub-terms that are present,
  and `Complete` says trigger and body are set. `equals`, the three copies
  and `toASString` raise `NullPointerException` where they dereference a
  missing trigger or body; `toASString` prints a missing trigger as
  `null`.
- `setTerm(2, true)` stores `true` as it is. Only `setContext` turns it
  into "no context".

## Model

| member | source | states |
|---|---|---|
| Lang.Wrap32 | src/main/java/jason/asSyntax/Conflict.java:19 | Java `int` addition: the result is a 32-bit value congruent to the exact sum modulo 2^32, and equal to it when it fits |
| Conflicts.HashCode | src/main/java/jason/asSyntax/Conflict.java:34-36 | the hash fixed at construction (key hash plus type hash, wrapped) is a Java `int` |
| Conflicts.Equals | src/main/java/jason/asSyntax/Conflict.java:30-32 | two descriptors are equal exactly when they are the same value |
| Conflicts.Clone | src/main/java/jason/asSyntax/Conflict.java:38-40 | the clone equals the original and has the same key and type |
| Conflicts.GettersReturnConstructorArguments | src/main/java/jason/asSyntax/Conflict.java:16-28 | `getConflict` and `getType` return what the constructor was given |
| Conflicts.EqualsIffSameKeyAndType | src/main/java/jason/asSyntax/Conflict.java:30-32 | equality holds iff both key and type agree; the same key with another type is a different descriptor |
| Conflicts.EqualsIsEquivalence | src/main/java/jason/asSyntax/Conflict.java:30-32 | `equals` is reflexive, symmetric and transitive |
| Conflicts.EqualsImpliesSameHash | src/main/java/jason/asSyntax/Conflict.java:30-36 | equal descriptors have equal hashes, as a hash set requires |
| Terms.Subst | src/main/java/jason/asSyntax/Plan.java:306-309 | applying a unifier keeps the kind of every non-variable term, leaves an empty body empty and an unbound variable unchanged |
| Terms.SubstEmpty | src/main/java/jason/asSyntax/Plan.java:306-309 | applying the empty unifier gives every term back unchanged |
| Terms.Show | src/main/java/jason/asSyntax/Plan.java:377-378 | a trigger's text is non-empty and starts with `+`, `-` or `^`, never `@` |
| PlanAnnotations.ToConflict | src/main/java/jason/asSyntax/Plan.java:144-165 | raises (string index out of bounds) exactly for the empty string; gives null exactly for terms that are neither atom, string nor unnamed variable; and for each other input the descriptor of its production: atom → identifier, `@name` → plan name, `+...`/`-...` → trigger pattern, any other non-empty string → identifier, `_` → atomic |
| PlanAnnotations.PlainStringIsIdentifier | src/main/java/jason/asSyntax/Plan.java:146-158 | a non-empty string without a `@`, `+` or `-` prefix gives the same identifier descriptor as the atom with that name |
| PlanAnnotations.ToConflictRoundTrip | src/main/java/jason/asSyntax/Plan.java:144-165 | every well-formed descriptor is recovered from the annotation term that denotes it |
| PlanAnnotations.ToConflictWellFormed | src/main/java/jason/asSyntax/Plan.java:144-165 | every descriptor produced is well-formed: atomic is keyed `_`, a trigger pattern starts with `+` or `-` |
| PlanAnnotations.ToConflictExamples | src/main/java/jason/asSyntax/Plan.java:146-163 | the descriptor of an atom, `@name`, `+...`, `-...`, a plain string, `_`, a variable, a number and the empty string |
| PlanAnnotations.ConflictElems | src/main/java/jason/asSyntax/Plan.java:172-180 | `conflict()` converts nothing; a first argument that is not a list is converted alone |
| PlanAnnotations.AddConflictsSpec | src/main/java/jason/asSyntax/Plan.java:171-182 | the loop completes normally iff no element is the empty string; the set only grows, within the elements' descriptors, and gains all of them on normal completion |
| PlanAnnotations.AddConflictsAbruptIsFinal | src/main/java/jason/asSyntax/Plan.java:174-176 | once an element raises, the remaining elements are not converted |
| PlanAnnotations.AddConflictsAbruptState | src/main/java/jason/asSyntax/Plan.java:174-175 | when the first empty string is element j, the loop raises string index out of bounds and the set is exactly the old set plus the descriptors of elements 0 to j - 1: nothing added before the raise is rolled back |
| PlanAnnotations.ScanAbruptIsFinal | src/main/java/jason/asSyntax/Plan.java:118-134 | once an annotation raises, the remaining annotations are not scanned |
| PlanAnnotations.ScanAnnotSpec | src/main/java/jason/asSyntax/Plan.java:119-132 | one annotation raises iff it is `conflict(...)` with an empty string to convert; it sets `breakpoint`/`all_unifs` iff it is that atom; otherwise it adds exactly its declared descriptors |
| PlanAnnotations.ScanAnnotsSpec | src/main/java/jason/asSyntax/Plan.java:115-136 | the scan completes normally iff no annotation raises; set and flags only grow; on normal completion the set gains exactly the declared descriptors and each flag is set iff its annotation is present or it was set before |
| PlanAnnotations.AtomicAnnotationDeclaresAtomicConflict | src/main/java/jason/asSyntax/Plan.java:119-122 | an `atomic` annotation puts the descriptor (`_`, ATOMIC) into the set |
| PlanAnnotations.UnannotatedLabelScansNothing | src/main/java/jason/asSyntax/Plan.java:115-117 | a null label, or one without annotations, changes no flag and no descriptor |
| PlanAnnotations.SingletonListIsScalar | src/main/java/jason/asSyntax/Plan.java:172-180 | `conflict([X])` declares the same as `conflict(X)` for a non-list `X` |
| PlanAnnotations.OnlyFirstArgumentRead | src/main/java/jason/asSyntax/Plan.java:172-181 | only the first argument of `conflict(...)` is read, and `conflict()` declares nothing |
| PlanAnnotations.UnsupportedTermAddsNull | src/main/java/jason/asSyntax/Plan.java:160-164 | a term that is neither atom, string nor unnamed variable adds null to the set |
| PlanViews.PlanEqualsIgnoresBookkeeping | src/main/java/jason/asSyntax/Plan.java:280-291 | label, flags, conflict set and registry never affect equality |
| PlanViews.PlanEqualsReflexive | src/main/java/jason/asSyntax/Plan.java:280-291 | every plan equals itself |
| PlanViews.PlanEqualsAsymmetry | src/main/java/jason/asSyntax/Plan.java:284-289 | equality fails to be symmetric exactly when one plan has a context, the other has none, and triggers and bodies agree; plans that agree on having a context compare symmetrically |
| PlanViews.CopyOf | src/main/java/jason/asSyntax/Plan.java:316-337 | a copy keeps the conflict set and the term flag, has no registry, and has the three flags only when there is a label |
| PlanViews.CopyIsEqual | src/main/java/jason/asSyntax/Plan.java:316-337 | a copy equals its original in both directions |
| PlanViews.CopyIdempotent | src/main/java/jason/asSyntax/Plan.java:316-337 | copying a copy yields the same state |
| PlanViews.CapplyEmptyIsCopy | src/main/java/jason/asSyntax/Plan.java:293-314 | `capply` with the empty unifier builds exactly what `clone` builds |
| PlanViews.PiecesOf | src/main/java/jason/asSyntax/Plan.java:377-379 | the label and context pieces are present iff the plan has them, the body piece iff the body is not empty, and a trigger's piece never starts with `@` |
| PlanViews.LayoutFrame | src/main/java/jason/asSyntax/Plan.java:368-381 | a plan used as a term is wrapped in `{ ` and ` }`; any other plan's text ends with `.` |
| PlanViews.LayoutLabelMarker | src/main/java/jason/asSyntax/Plan.java:377 | `@` follows the opening exactly when the plan has a label |
| PlanViews.LayoutContext | src/main/java/jason/asSyntax/Plan.java:378 | a context appears as ` : context` right after the trigger |
| PlanViews.LayoutBody | src/main/java/jason/asSyntax/Plan.java:379 | a body appears as ` <- body` right before the terminator |
| PlanViews.PiecesOfUpdate | src/main/java/jason/asSyntax/Plan.java:377-379 | changing a plan's context, or its body between empty and non-empty, changes only that piece of its text |
| Plans.Plan.Blank | src/main/java/jason/asSyntax/Plan.java:37-57 | `new Plan()`: label, trigger, context and body null, no flags, no descriptors, no registry |
| Plans.Plan.Assemble | src/main/java/jason/asSyntax/Plan.java:316-337 | the copies' field assignments: label and flags only with a label, then descriptors, context and term flag; no registry |
| Plans.Plan.Create | src/main/java/jason/asSyntax/Plan.java:60-72 | the parser's constructor: a null trigger raises a null-pointer exception; otherwise it fails exactly when the label scan raises, and otherwise the descriptors and flags are the scan's, `true` becomes no context, and a missing body becomes a fresh empty body |
| Plans.Plan.GetArity | src/main/java/jason/asSyntax/Plan.java:74-77 | the arity is 4 for every plan; `getTerm` answers null outside 0 to 3, and answers every position in that range once trigger and body are set |
| Plans.Plan.GetTerm | src/main/java/jason/asSyntax/Plan.java:81-95 | label (or `nolabel`), trigger, context (or `true`), body at 0 to 3, a missing trigger or body as null; null elsewhere |
| Plans.Plan.SetTerm | src/main/java/jason/asSyntax/Plan.java:97-113 | stores any term that casts, null included, at positions 0 to 3; reading the position back gives what was stored, or for null the label's or context's default or null for trigger and body; every other position is unchanged |
| Plans.Plan.SetLabel | src/main/java/jason/asSyntax/Plan.java:115-136 | stores the label; the new descriptors and flags are `ScanLabel` of the old ones, and the exception raised is the scan's |
| Plans.Plan.ScanAnnotations | src/main/java/jason/asSyntax/Plan.java:118-134 | the loop over the annotations yields exactly `ScanAnnots` of the old descriptors and flags, and raises what it raises |
| Plans.Plan.ProcessConflictSet | src/main/java/jason/asSyntax/Plan.java:171-182 | the new conflict set and the exception raised are those of `AddConflicts` over the annotation's arguments |
| Plans.Plan.AddConflictingPlan | src/main/java/jason/asSyntax/Plan.java:184-188 | allocates the registry if null and adds the identifier; afterwards the plan conflicts with it |
| Plans.Plan.RemoveConflictingPlan | src/main/java/jason/asSyntax/Plan.java:190-192 | removes the identifier and no other |
| Plans.Plan.HasConflictingPlans | src/main/java/jason/asSyntax/Plan.java:194-196 | true iff the registry is allocated and some identifier is recorded in it |
| Plans.Plan.ConflictsWith | src/main/java/jason/asSyntax/Plan.java:209-211 | membership of the identifier in the registry |
| Plans.Plan.ContainsConflict | src/main/java/jason/asSyntax/Plan.java:201-203 | membership of the descriptor in the conflict set |
| Plans.Plan.SetContext | src/main/java/jason/asSyntax/Plan.java:217-221 | `true` is stored as no context, so reading position 2 back gives what was set, or `true` for null |
| Plans.Plan.SetAsPlanTerm | src/main/java/jason/asSyntax/Plan.java:223-225 | sets the term flag and nothing else |
| Plans.Plan.IsAtomic | src/main/java/jason/asSyntax/Plan.java:255-257 | always false for a valid plan |
| Plans.Plan.Equals | src/main/java/jason/asSyntax/Plan.java:280-291 | for a plan with trigger and body: true iff the other plan is non-null, has trigger and body, and `PlanEquals` holds of the two views; it raises a null-pointer exception exactly when the other plan is a distinct non-null plan that passes both context tests and then this plan's trigger is missing, or the triggers agree and this plan's body is missing; for a plan lacking trigger or body every other answer is false unless the other plan is this one |
| Plans.Plan.CopyConflicts | src/main/java/jason/asSyntax/Plan.java:302-304 | raises a null-pointer exception iff the set holds null; otherwise the copy has the same contents |
| Plans.Plan.Capply | src/main/java/jason/asSyntax/Plan.java:293-314 | raises a null-pointer exception iff the conflict set holds null or trigger or body is missing; otherwise a fresh valid plan with fresh sub-terms whose state is `CapplyOf` this one |
| Plans.Plan.Clone | src/main/java/jason/asSyntax/Plan.java:316-337 | raises a null-pointer exception iff the conflict set holds null or trigger or body is missing; otherwise a fresh valid plan with fresh sub-terms whose state is `CopyOf` this one and which equals this plan both ways |
| Plans.Plan.CloneOnlyBody | src/main/java/jason/asSyntax/Plan.java:339-361 | raises like `clone`; otherwise a fresh plan whose state is `CopyOf` this one, sharing this plan's label and context objects, with fresh trigger and body |
| Plans.Plan.ToASString | src/main/java/jason/asSyntax/Plan.java:368-381 | raises a null-pointer exception iff the body is missing; for a plan with trigger and body the text is `Render` of the plan, and a missing trigger is printed as `null` in its place; braces or a final period; `@` after the opening iff there is a label |

## Left out

- `PlanAnnotations.ToConflict`: assumes that `Trigger.parseTrigger` returns normally for every string starting with `+` or `-`. That method is not part of this model, so what it does on a malformed pattern is not modelled. The clauses "raises exactly for the empty string" here and "completes normally iff no element is the empty string" in `AddConflictsSpec` rest on this assumption.
- `isRelevant` is not modelled: it calls unification (`Unifier.unifiesNoUndo`), which is not part of this model.
- `parse` is not modelled: it runs the AgentSpeak parser, which is not part of this model.
- `getAsDOM` is not modelled: it builds XML.
- `toString` is not modelled separately: it only delegates to `toASString`.
- The field getters `getLabel`, `getTrigger`, `getTriggerEvent`, `getContext`, `getBody`, `getConflicts`, `getConflictingPlans`, `hasBreakpoint` and `isAllUnifs` are not modelled as members: they return a field, and the contracts read the fields directly.
- Logging, serialisation and the source-information field copied by `setSrcInfo` are left out.
- The result of `Trigger.parseTrigger` inside `toConflict` is discarded by the code, so it is not modelled. The term classes' own `capply`, `clone`, `equals`, `setAsTriggerTerm`, `setAsBodyTerm` and `toString` are not part of this model. Term equality (in `equals`, in the tests against `atomic`, `breakpoint` and `all_unifs`, and in `setContext`'s test against `true`) is structural equality of the datatype, whereas Jason's `Pred.equals` compares annotations as sets. `Terms.Subst` and `Terms.Show` stand in for them structurally.
- `Terms.Subst`: does not follow chains of bindings (a variable bound to another bound variable). It also treats open lists (with a tail) like closed ones.
- `Terms.Show`: approximates the term classes' printing. Only the shape of a plan's text is claimed, not the exact text of each sub-term.
- Inside a label's annotations and inside lists, a structure with neither arguments nor annotations is always written as an atom, so `isAtom`/`isPred` are decided by the datatype constructor there. A plan label is always a `Pred`, possibly without arguments or annotations.
- `Lang.StringHashCode`: hashes each character as one code point, whereas Java hashes UTF-16 code units. The two agree on the Basic Multilingual Plane.
- `Conflicts.HashCode`: the JVM hash of an enum constant is an identity hash. The model uses the ordinal, so only the relation between `equals` and `hashCode` is claimed, not concrete values.
- `Conflicts.Equals`: compares two descriptors only. The `ClassCastException` for a non-`Conflict` argument and the `NullPointerException` for null are not modelled.
- Adding a descriptor whose hash is 0 to a set that already holds null makes Java's `HashSet` call `equals` on null and raise. The model's set does not; hash buckets are not modelled.
- `Plans.Plan.SetTerm`: requires a non-null term to have the class of its position (`Castable`; null always casts). The `ClassCastException` for another term is not modelled.
- `Plans.Plan.Equals`: a missing trigger or body of the other plan compares unequal, which is what `equals` on a null argument returns in Java.
- `Plans.Plan.Capply`: requires a valid plan. The `ClassCastException` raised when the unifier binds a context variable to a non-formula is not modelled.
- `Plans.Plan.ConflictsWith`: requires the registry to be allocated. The `NullPointerException` raised otherwise is not modelled.
- `Plans.Plan.RemoveConflictingPlan`: requires the registry to be allocated. The `NullPointerException` raised otherwise is not modelled.
- Concurrency is left out. Plans are not shared between threads in the modelled code.

=== FILE: annotations.dfy ===
/**
  How a plan reads its label's annotations: the flags `breakpoint` and
  `all_unifs`, the `atomic` marker, and `conflict(...)` annotations whose
  argument, a list or a single term, is turned descriptor by descriptor
  into the plan's conflict set.

  These are the specification functions of `Plan.setLabel`,
  `Plan.processConflictSet` and `Plan.toConflict`; the class in plan.dfy
  runs the same steps imperatively and is proved equal to them.
 */
module PlanAnnotations {
  import opened Lang
  import opened Terms
  import opened Conflicts

  /** The contents of a plan's conflict set. `None` is the null that `toConflict` returns for terms it does not understand, which the set stores like any other element. */
  type ConflictSet = set<Option<Conflict>>

  /** The descriptor for a plan that conflicts with every other instance of itself. */
  const AtomicConflict: Conflict := Conflict("_", Atomic)

  /**
    `toConflict`: an atom names an identifier; a string names a plan
    (`@name`), a trigger pattern (`+...`, `-...`) or an identifier; the
    unnamed variable stands for "atomic"; any other term gives null. The
    empty string raises, since its first character is read.
   */
  function ToConflict(t: Term): (r: Result<Option<Conflict>>)
    ensures r.Err? <==> t == Str("")
    ensures r.Err? ==> r.error == StringIndexOutOfBounds
    ensures r.Ok? && r.value.None? <==> !(t.Atom? || t.Str? || t.UnnamedVar?)
    ensures t.Atom? ==> r == Ok(Some(Conflict(t.functor, ConflictIdentifier)))
    ensures t.Str? && |t.text| > 0 && t.text[0] == '@' ==> r == Ok(Some(Conflict(t.text[1..], PlanName)))
    ensures t.Str? && |t.text| > 0 && t.text[0] in {'+', '-'} ==> r == Ok(Some(Conflict(t.text, PlanTrigger)))
    ensures t.Str? && |t.text| > 0 && t.text[0] !in {'@', '+', '-'} ==> r == Ok(Some(Conflict(t.text, ConflictIdentifier)))
    ensures t.UnnamedVar? ==> r == Ok(Some(AtomicConflict))
  {
    match t
    case Atom(name) => Ok(Some(Conflict(name, ConflictIdentifier)))
    case Str(s) =>
      if |s| == 0 then Err(StringIndexOutOfBounds)
      else if s[0] == '@' then Ok(Some(Conflict(s[1..], PlanName)))
      else if s[0] == '+' || s[0] == '-' then Ok(Some(Conflict(s, PlanTrigger)))
      else Ok(Some(Conflict(s, ConflictIdentifier)))
    case UnnamedVar => Ok(Some(AtomicConflict))
    case _ => Ok(None)
  }

  /** The descriptors `toConflict` can produce: an atomic descriptor is keyed `_`, a trigger pattern starts with `+` or `-`. */
  predicate WellFormed(c: Conflict) {
    (c.kind == Atomic ==> c.key == "_") &&
    (c.kind == PlanTrigger ==> |c.key| > 0 && (c.key[0] == '+' || c.key[0] == '-'))
  }

  /** The annotation argument that denotes a descriptor; the inverse of `ToConflict`. */
  function FromConflict(c: Conflict): Term {
    match c.kind
    case PlanTrigger => Str(c.key)
    case PlanName => Str("@" + c.key)
    case ConflictIdentifier => Atom(c.key)
    case Atomic => UnnamedVar
  }

  /** Every well-formed descriptor is what `toConflict` makes of some term. */
  lemma ToConflictRoundTrip(c: Conflict)
    requires WellFormed(c)
    ensures ToConflict(FromConflict(c)) == Ok(Some(c))
  {
    if c.kind == PlanName {
      assert ("@" + c.key)[1..] == c.key;
    }
  }

  /** A string without a `@`, `+` or `-` prefix names the same identifier as the atom with that name. */
  lemma PlainStringIsIdentifier(k: string)
    requires |k| > 0 && k[0] !in {'@', '+', '-'}
    ensures ToConflict(Str(k)) == ToConflict(Atom(k)) == Ok(Some(Conflict(k, ConflictIdentifier)))
  {
  }

  /** Everything `toConflict` produces is well-formed. */
  lemma ToConflictWellFormed(t: Term)
    ensures ToConflict(t).Ok? && ToConflict(t).value.Some? ==> WellFormed(ToConflict(t).value.value)
  {
  }

  /** The descriptor grammar on sample inputs. */
  lemma ToConflictExamples()
    ensures ToConflict(Atom("foo")) == Ok(Some(Conflict("foo", ConflictIdentifier)))
    ensures ToConflict(Str("@myPlan")) == Ok(Some(Conflict("myPlan", PlanName)))
    ensures ToConflict(Str("+!goal")) == Ok(Some(Conflict("+!goal", PlanTrigger)))
    ensures ToConflict(Str("-b")) == Ok(Some(Conflict("-b", PlanTrigger)))
    ensures ToConflict(Str("bar")) == Ok(Some(Conflict("bar", ConflictIdentifier)))
    ensures ToConflict(UnnamedVar) == Ok(Some(Conflict("_", Atomic)))
    ensures ToConflict(Var("X")) == Ok(None)
    ensures ToConflict(Num(1)) == Ok(None)
    ensures ToConflict(Str("")) == Err(StringIndexOutOfBounds)
  {
    assert "@myPlan"[1..] == "myPlan";
  }

  predicate IsConflictAnnot(t: Term) {
    t.Pred? && t.functor == FConflict
  }

  /**
    The terms `processConflictSet` converts: nothing for `conflict()`, the
    elements of a list first argument, otherwise the first argument alone.
   */
  function ConflictElems(p: Term): (es: seq<Term>)
    requires p.Pred?
    ensures |p.args| == 0 ==> es == []
    ensures |p.args| > 0 && !p.args[0].ListTerm? ==> es == [p.args[0]]
  {
    if |p.args| == 0 then []
    else if p.args[0].ListTerm? then p.args[0].elems
    else [p.args[0]]
  }

  /** The descriptors that converting `elems` contributes. */
  function Descriptors(elems: seq<Term>): ConflictSet {
    set e | e in elems && ToConflict(e).Ok? :: ToConflict(e).value
  }

  /**
    The loop of `processConflictSet`: add `toConflict` of each element in
    turn, stopping at the first one that raises.
   */
  function AddConflicts(acc: ConflictSet, elems: seq<Term>): Run<ConflictSet>
    decreases |elems|
  {
    if elems == [] then Normal(acc)
    else
      var before := AddConflicts(acc, elems[..|elems| - 1]);
      if before.Abrupt? then before
      else
        match ToConflict(elems[|elems| - 1])
        case Err(e) => Abrupt(before.state, e)
        case Ok(d) => Normal(before.state + {d})
  }

  lemma DescriptorsSnoc(init: seq<Term>, last: Term)
    ensures Descriptors(init + [last]) ==
            Descriptors(init) + (if ToConflict(last).Ok? then {ToConflict(last).value} else {})
  {
    var all := init + [last];
    forall d | d in Descriptors(all)
      ensures d in Descriptors(init) + (if ToConflict(last).Ok? then {ToConflict(last).value} else {})
    {
      var e :| e in all && ToConflict(e).Ok? && ToConflict(e).value == d;
      if e != last {
        assert e in init;
      }
    }
    forall d | d in Descriptors(init) ensures d in Descriptors(all) {
      var e :| e in init && ToConflict(e).Ok? && ToConflict(e).value == d;
      assert e in all;
    }
    assert last in all;
  }

  /**
    `processConflictSet` only adds to the set; it completes normally exactly
    when no element is the empty string, and then it has added the
    descriptor (or null) of every element.
   */
  lemma {:induction false} AddConflictsSpec(acc: ConflictSet, elems: seq<Term>)
    ensures AddConflicts(acc, elems).Normal? <==> Str("") !in elems
    ensures AddConflicts(acc, elems).Abrupt? ==> AddConflicts(acc, elems).thrown == StringIndexOutOfBounds
    ensures acc <= AddConflicts(acc, elems).state <= acc + Descriptors(elems)
    ensures AddConflicts(acc, elems).Normal? ==> AddConflicts(acc, elems).state == acc + Descriptors(elems)
    decreases |elems|
  {
    if elems != [] {
      var init, last := elems[..|elems| - 1], elems[|elems| - 1];
      assert elems == init + [last];
      AddConflictsSpec(acc, init);
      DescriptorsSnoc(init, last);
    }
  }

  /** Once `processConflictSet` has raised, the remaining elements are not looked at. */
  lemma {:induction false} AddConflictsAbruptIsFinal(acc: ConflictSet, elems: seq<Term>, k: nat)
    requires k <= |elems| && AddConflicts(acc, elems[..k]).Abrupt?
    ensures AddConflicts(acc, elems) == AddConflicts(acc, elems[..k])
    decreases |elems|
  {
    if k < |elems| {
      var init := elems[..|elems| - 1];
      assert init[..k] == elems[..k];
      AddConflictsAbruptIsFinal(acc, init, k);
    } else {
      assert elems[..k] == elems;
    }
  }

  /**
    When `processConflictSet` raises, the set keeps exactly what was added
    before the first empty string: the descriptors of the earlier elements.
   */
  lemma {:induction false} AddConflictsAbruptState(acc: ConflictSet, elems: seq<Term>, j: nat)
    requires j < |elems| && elems[j] == Str("") && Str("") !in elems[..j]
    ensures AddConflicts(acc, elems) == Abrupt(acc + Descriptors(elems[..j]), StringIndexOutOfBounds)
  {
    AddConflictsSpec(acc, elems[..j]);
    var pre := elems[..j + 1];
    assert pre[..|pre| - 1] == elems[..j];
    assert pre[|pre| - 1] == Str("");
    AddConflictsAbruptIsFinal(acc, elems, j + 1);
  }

  /** The part of a plan that scanning its label updates. */
  datatype LabelScan = LabelScan(conflicts: ConflictSet, hasBreakpoint: bool, isAllUnifs: bool)

  /** One iteration of the annotation loop of `setLabel`. */
  function ScanAnnot(s: LabelScan, t: Term): Run<LabelScan> {
    var s1 := if t == TAtomic then s.(conflicts := s.conflicts + {Some(AtomicConflict)}) else s;
    var s2 := if t == TBreakPoint then s1.(hasBreakpoint := true) else s1;
    var s3 := if t == TAllUnifs then s2.(isAllUnifs := true) else s2;
    if IsConflictAnnot(t) then
      match AddConflicts(s3.conflicts, ConflictElems(t))
      case Normal(cs) => Normal(s3.(conflicts := cs))
      case Abrupt(cs, e) => Abrupt(s3.(conflicts := cs), e)
    else Normal(s3)
  }

  /** The annotation loop of `setLabel`, stopping at the first annotation that raises. */
  function ScanAnnots(s: LabelScan, ts: seq<Term>): Run<LabelScan>
    decreases |ts|
  {
    if ts == [] then Normal(s)
    else
      var before := ScanAnnots(s, ts[..|ts| - 1]);
      if before.Abrupt? then before else ScanAnnot(before.state, ts[|ts| - 1])
  }

  /** Once an annotation has raised, `setLabel` looks at no further annotation. */
  lemma {:induction false} ScanAbruptIsFinal(s: LabelScan, ts: seq<Term>, k: nat)
    requires k <= |ts| && ScanAnnots(s, ts[..k]).Abrupt?
    ensures ScanAnnots(s, ts) == ScanAnnots(s, ts[..k])
    decreases |ts|
  {
    if k < |ts| {
      var init := ts[..|ts| - 1];
      assert init[..k] == ts[..k];
      ScanAbruptIsFinal(s, init, k);
    } else {
      assert ts[..k] == ts;
    }
  }

  /** `setLabel` after storing the label: only a label with annotations is scanned. */
  function ScanLabel(s: LabelScan, lbl: Option<Term>): Run<LabelScan> {
    if lbl.Some? && lbl.value.Pred? && lbl.value.annots != [] then ScanAnnots(s, lbl.value.annots)
    else Normal(s)
  }

  /** The annotation raises: it is a `conflict` annotation with an empty string to convert. */
  predicate AnnotRaises(t: Term) {
    IsConflictAnnot(t) && Str("") in ConflictElems(t)
  }

  /** The descriptors one annotation declares. */
  function AnnotConflicts(t: Term): ConflictSet {
    (if t == TAtomic then {Some(AtomicConflict)} else {}) +
    (if IsConflictAnnot(t) then Descriptors(ConflictElems(t)) else {})
  }

  /** The descriptors a list of annotations declares. */
  function Declared(ts: seq<Term>): ConflictSet {
    set t, d | t in ts && d in AnnotConflicts(t) :: d
  }

  lemma DeclaredSnoc(init: seq<Term>, last: Term)
    ensures Declared(init + [last]) == Declared(init) + AnnotConflicts(last)
  {
    var all := init + [last];
    forall d | d in Declared(all) ensures d in Declared(init) + AnnotConflicts(last) {
      var t :| t in all && d in AnnotConflicts(t);
      if t != last {
        assert t in init;
      }
    }
    forall d | d in Declared(init) ensures d in Declared(all) {
      var t :| t in init && d in AnnotConflicts(t);
      assert t in all;
    }
    forall d | d in AnnotConflicts(last) ensures d in Declared(all) {
      assert last in all;
    }
  }

  /** One annotation: what it sets and adds, and when it raises. */
  lemma ScanAnnotSpec(s: LabelScan, t: Term)
    ensures ScanAnnot(s, t).Normal? <==> !AnnotRaises(t)
    ensures s.conflicts <= ScanAnnot(s, t).state.conflicts <= s.conflicts + AnnotConflicts(t)
    ensures ScanAnnot(s, t).state.hasBreakpoint == (s.hasBreakpoint || t == TBreakPoint)
    ensures ScanAnnot(s, t).state.isAllUnifs == (s.isAllUnifs || t == TAllUnifs)
    ensures ScanAnnot(s, t).Normal? ==> ScanAnnot(s, t).state.conflicts == s.conflicts + AnnotConflicts(t)
  {
    if IsConflictAnnot(t) {
      AddConflictsSpec(s.conflicts, ConflictElems(t));
    }
  }

  /**
    `setLabel`'s loop: the conflict set and the flags only grow; the loop
    completes normally exactly when no annotation raises, and then the set
    has gained the declared descriptors and each flag is set iff its
    annotation is present (or it was set before).
   */
  lemma {:induction false} ScanAnnotsSpec(s: LabelScan, ts: seq<Term>)
    ensures ScanAnnots(s, ts).Normal? <==> forall t :: t in ts ==> !AnnotRaises(t)
    ensures s.conflicts <= ScanAnnots(s, ts).state.conflicts <= s.conflicts + Declared(ts)
    ensures s.hasBreakpoint ==> ScanAnnots(s, ts).state.hasBreakpoint
    ensures s.isAllUnifs ==> ScanAnnots(s, ts).state.isAllUnifs
    ensures ScanAnnots(s, ts).state.hasBreakpoint ==> s.hasBreakpoint || TBreakPoint in ts
    ensures ScanAnnots(s, ts).state.isAllUnifs ==> s.isAllUnifs || TAllUnifs in ts
    ensures ScanAnnots(s, ts).Normal? ==>
              ScanAnnots(s, ts).state ==
                LabelScan(s.conflicts + Declared(ts), s.hasBreakpoint || TBreakPoint in ts, s.isAllUnifs || TAllUnifs in ts)
    decreases |ts|
  {
    if ts != [] {
      var init, last := ts[..|ts| - 1], ts[|ts| - 1];
      assert ts == init + [last];
      ScanAnnotsSpec(s, init);
      DeclaredSnoc(init, last);
      var before := ScanAnnots(s, init);
      if before.Abrupt? {
        var t :| t in init && AnnotRaises(t);
        assert t in ts;
      } else {
        ScanAnnotSpec(before.state, last);
      }
    }
  }

  /** An `atomic` annotation puts the descriptor `("_", ATOMIC)` in the set once the scan completes. */
  lemma AtomicAnnotationDeclaresAtomicConflict(s: LabelScan, ts: seq<Term>)
    requires TAtomic in ts
    requires forall t :: t in ts ==> !AnnotRaises(t)
    ensures ScanAnnots(s, ts).Normal?
    ensures Some(AtomicConflict) in ScanAnnots(s, ts).state.conflicts
  {
    ScanAnnotsSpec(s, ts);
    assert Some(AtomicConflict) in AnnotConflicts(TAtomic);
  }

  /** A null label, or one without annotations, leaves flags and set as they were. */
  lemma UnannotatedLabelScansNothing(s: LabelScan, lbl: Option<Term>)
    requires lbl.None? || !lbl.value.Pred? || lbl.value.annots == []
    ensures ScanLabel(s, lbl) == Normal(s)
  {
  }

  /** `conflict([X])` declares the same as `conflict(X)` when `X` is not itself a list. */
  lemma SingletonListIsScalar(s: LabelScan, x: Term, rest: seq<Term>, annots: seq<Term>)
    requires !x.ListTerm?
    ensures ScanAnnot(s, Pred(FConflict, [ListTerm([x])] + rest, annots)) ==
            ScanAnnot(s, Pred(FConflict, [x], annots))
  {
  }

  /** Only the first argument of `conflict(...)` is read, and `conflict()` declares nothing. */
  lemma OnlyFirstArgumentRead(s: LabelScan, args: seq<Term>, annots: seq<Term>)
    ensures |args| > 0 ==> ScanAnnot(s, Pred(FConflict, args, annots)) == ScanAnnot(s, Pred(FConflict, args[..1], []))
    ensures args == [] ==> ScanAnnot(s, Pred(FConflict, args, annots)) == Normal(s)
  {
  }

  /** A term `toConflict` does not understand still adds an element: null. */
  lemma UnsupportedTermAddsNull(s: LabelScan, elems: seq<Term>, e: Term)
    requires e in elems && Str("") !in elems
    requires !(e.Atom? || e.Str? || e.UnnamedVar?)
    ensures ScanAnnot(s, Pred(FConflict, [ListTerm(elems)], [])).Normal?
    ensures None in ScanAnnot(s, Pred(FConflict, [ListTerm(elems)], [])).state.conflicts
  {
    AddConflictsSpec(s.conflicts, elems);
    assert None in Descriptors(elems);
  }
}

=== FILE: conflict.dfy ===
/**
  A conflict descriptor: an immutable value naming a class of plans that a
  plan must not run at the same time as, tagged by how the name is meant
  (a trigger pattern, a plan name, a free identifier, or "atomic").
 */
module Conflicts {
  import opened Lang

  datatype ConflictType = PlanTrigger | PlanName | ConflictIdentifier | Atomic

  /** `new Conflict(conflict, type)`: the fields are set once and never change. */
  datatype Conflict = Conflict(key: string, kind: ConflictType)

  /** `getConflict` */
  function GetConflict(c: Conflict): string {
    c.key
  }

  /** `getType` */
  function GetType(c: Conflict): ConflictType {
    c.kind
  }

  /**
    The hash of an enum constant. The JVM uses the constant's identity hash,
    which is fixed for a run but not specified; the model uses the ordinal.
   */
  function TypeHashCode(k: ConflictType): int {
    match k
    case PlanTrigger => 0
    case PlanName => 1
    case ConflictIdentifier => 2
    case Atomic => 3
  }

  /** `hashCode`: the key's hash plus the type's hash, in `int` arithmetic. */
  function HashCode(c: Conflict): (h: int)
    ensures IsInt(h)
  {
    Wrap32(StringHashCode(c.key) + TypeHashCode(c.kind))
  }

  /** `equals`: two descriptors are equal exactly when they are the same value. */
  function Equals(self: Conflict, other: Conflict): (r: bool)
    ensures r <==> self == other
  {
    other.key == self.key && other.kind == self.kind
  }

  /** `clone`: a descriptor equal to the original, with the same key and type. */
  function Clone(c: Conflict): (r: Conflict)
    ensures Equals(r, c) && r.key == c.key && r.kind == c.kind
  {
    Conflict(c.key, c.kind)
  }

  /** The getters return exactly what the constructor was given. */
  lemma GettersReturnConstructorArguments(key: string, kind: ConflictType)
    ensures GetConflict(Conflict(key, kind)) == key
    ensures GetType(Conflict(key, kind)) == kind
  {
  }

  /** Equality is over both fields: the same key with another type is a different descriptor. */
  lemma EqualsIffSameKeyAndType(a: Conflict, b: Conflict)
    ensures Equals(a, b) <==> a.key == b.key && a.kind == b.kind
    ensures a.key == b.key && a.kind != b.kind ==> !Equals(a, b)
  {
  }

  /** `equals` is an equivalence relation. */
  lemma EqualsIsEquivalence(a: Conflict, b: Conflict, c: Conflict)
    ensures Equals(a, a)
    ensures Equals(a, b) ==> Equals(b, a)
    ensures Equals(a, b) && Equals(b, c) ==> Equals(a, c)
  {
  }

  /** `hashCode` agrees with `equals`, as a hash set needs. */
  lemma EqualsImpliesSameHash(a: Conflict, b: Conflict)
    ensures Equals(a, b) ==> HashCode(a) == HashCode(b)
  {
  }
}

=== FILE: lang.dfy ===
/**
  Java-level notions the plan model needs: values that may be null,
  statements that complete abruptly with an exception, and 32-bit `int`
  arithmetic as used by `String.hashCode`.
 */
module Lang {

  /** A reference that may be null. */
  datatype Option<+T> = None | Some(value: T)

  /** The run-time exceptions that the modelled code can raise. */
  datatype JavaException = StringIndexOutOfBounds | NullPointer

  /** A value, or the exception raised while computing it. */
  datatype Result<+T> = Ok(value: T) | Err(error: JavaException)

  /**
    A computation over some state that either completes normally or
    completes abruptly with an exception; in both cases `state` is the
    state reached, since Java does not roll back the updates made before
    the exception.
   */
  datatype Run<+S> = Normal(state: S) | Abrupt(state: S, thrown: JavaException)

  /** The exception a run ended with, or null when it completed normally. */
  function ThrownBy<S>(run: Run<S>): Option<JavaException> {
    if run.Abrupt? then Some(run.thrown) else None
  }

  const TWO_32: int := 0x1_0000_0000
  const INT_MIN: int := -0x8000_0000
  const INT_MAX: int := 0x7fff_ffff

  predicate IsInt(x: int) {
    INT_MIN <= x <= INT_MAX
  }

  /** Java `int` wrap-around: the value of `x` in 32-bit two's complement. */
  function Wrap32(x: int): (r: int)
    ensures IsInt(r)
    ensures (x - r) % TWO_32 == 0
    ensures IsInt(x) ==> r == x
  {
    var m := x % TWO_32;
    if m <= INT_MAX then m else m - TWO_32
  }

  /**
    `String.hashCode`: s[0]*31^(n-1) + ... + s[n-1], computed in `int`
    arithmetic (each character taken as its code point).
   */
  function StringHashCode(s: string): (h: int)
    ensures IsInt(h)
    decreases |s|
  {
    if s == [] then 0 else Wrap32(31 * StringHashCode(s[..|s| - 1]) + s[|s| - 1] as int)
  }
}

=== FILE: plan.dfy ===
/**
  A plan: label, trigger event, optional context and body, the flags and
  conflict descriptors read from the label's annotations, and the registry
  of conflicting plan identifiers filled in at run time.

  Each sub-term is held through a `TermNode`, so that a plan that shares a
  sub-term with another (as `cloneOnlyBody` does) can be told apart from
  one that holds a fresh copy.
 */
module Plans {
  import opened Lang
  import opened Terms
  import opened Conflicts
  import opened PlanAnnotations
  import opened PlanViews

  /** A sub-term object; two plans share a sub-term when they hold the same node. */
  class TermNode {
    const term: Term

    constructor (t: Term)
      ensures term == t
    {
      term := t;
    }
  }

  /** The term a possibly-null node holds. */
  function NodeTerm(n: TermNode?): Option<Term> {
    if n == null then None else Some(n.term)
  }

  /** What `setTerm` can store at position `i` without a failing cast; a null always casts. */
  predicate Castable(i: int, t: TermNode?) {
    t != null ==>
      (i == 0 ==> t.term.Pred?) &&
      (i == 1 ==> t.term.Trigger?) &&
      (i == 2 ==> IsFormula(t.term)) &&
      (i == 3 ==> t.term.Body?)
  }

  class Plan {
    var planLabel: TermNode?
    var tevent: TermNode?
    var context: TermNode?
    var body: TermNode?

    var isAtomic: bool
    var isAllUnifs: bool
    var hasBreakpoint: bool

    /** The plan is used as a term; this only changes how it is printed. */
    var isTerm: bool

    /** Identifiers of the plans found to conflict with this one; null until the first is added. */
    var conflictingPlans: Option<set<string>>

    /** The descriptors declared by the label's annotations (null elements included). */
    var conflicts: ConflictSet

    /**
      The plan's invariant: each sub-term present has its declared class,
      and the atomic flag is never raised (nothing in the class sets it).
     */
    ghost predicate Valid()
      reads this
    {
      !isAtomic &&
      (planLabel != null ==> planLabel.term.Pred?) &&
      (tevent != null ==> tevent.term.Trigger?) &&
      (body != null ==> body.term.Body?)
    }

    /** Trigger and body are set, as in every plan the parser or a copy makes. */
    predicate Complete()
      reads this
    {
      tevent != null && body != null
    }

    /** The plan's state as a value. */
    function View(): PlanView
      reads this
      requires Complete()
    {
      PlanView(NodeTerm(planLabel), tevent.term, NodeTerm(context), body.term,
               isAtomic, hasBreakpoint, isAllUnifs, isTerm, conflicts, conflictingPlans)
    }

    /** The part of the state that label scanning updates. */
    function Scan(): LabelScan
      reads this
    {
      LabelScan(conflicts, hasBreakpoint, isAllUnifs)
    }

    /** `new Plan()`: every field at its default; trigger and body are null. */
    constructor Blank()
      ensures Valid() && !Complete()
      ensures planLabel == null && tevent == null && context == null && body == null
      ensures Scan() == LabelScan({}, false, false) && !isAtomic && !isTerm && conflictingPlans.None?
    {
      planLabel := null;
      tevent := null;
      context := null;
      body := null;
      isAtomic := false;
      isAllUnifs := false;
      hasBreakpoint := false;
      isTerm := false;
      conflictingPlans := None;
      conflicts := {};
    }

    /**
      `new Plan()` followed by the field assignments the three copies make:
      label and flags only when there is a label, then conflicts, context
      and the term flag; the registry stays null.
     */
    constructor Assemble(lb: TermNode?, te: TermNode, ct: TermNode?, bd: TermNode,
                         atomic: bool, breakpoint: bool, allUnifs: bool, asTerm: bool, cs: ConflictSet)
      requires te.term.Trigger? && bd.term.Body? && (lb != null ==> lb.term.Pred?) && !atomic
      ensures Valid() && Complete()
      ensures planLabel == lb && tevent == te && context == ct && body == bd
      ensures View() == PlanView(NodeTerm(lb), te.term, NodeTerm(ct), bd.term,
                                 lb != null && atomic, lb != null && breakpoint, lb != null && allUnifs,
                                 asTerm, cs, None)
    {
      planLabel := null;
      tevent := te;
      context := null;
      body := bd;
      isAtomic := false;
      isAllUnifs := false;
      hasBreakpoint := false;
      isTerm := false;
      conflictingPlans := None;
      conflicts := {};
      new;
      if lb != null {
        planLabel := lb;
        isAtomic := atomic;
        hasBreakpoint := breakpoint;
        isAllUnifs := allUnifs;
      }
      conflicts := cs;
      context := ct;
      isTerm := asTerm;
    }

    /**
      The parser's constructor `Plan(label, te, ct, bd)`: stores the
      trigger, scans the label, normalises the context and supplies an
      empty body when none is given. A null trigger is dereferenced and
      raises; when scanning the label raises, no plan is made either.
     */
    static method Create(lbl: TermNode?, te: TermNode?, ct: TermNode?, bd: TermNode?) returns (r: Result<Plan>)
      requires te != null ==> te.term.Trigger?
      requires lbl != null ==> lbl.term.Pred?
      requires ct != null ==> IsFormula(ct.term)
      requires bd != null ==> bd.term.Body?
      ensures te == null ==> r == Err(NullPointer)
      ensures var run := ScanLabel(LabelScan({}, false, false), NodeTerm(lbl));
              te != null ==>
                (r.Ok? <==> run.Normal?) && (r.Err? ==> r.error == run.thrown) &&
                (r.Ok? ==> r.value.Scan() == run.state)
      ensures r.Ok? ==> fresh(r.value) && r.value.Valid() && r.value.Complete()
      ensures r.Ok? ==> r.value.planLabel == lbl && r.value.tevent == te
      ensures r.Ok? ==> r.value.context == (if ct != null && ct.term == LTrue then null else ct)
      ensures r.Ok? && bd != null ==> r.value.body == bd
      ensures r.Ok? && bd == null ==> fresh(r.value.body) && r.value.body.term == EmptyBody
      ensures r.Ok? ==> !r.value.isTerm && r.value.conflictingPlans.None?
    {
      var p := new Plan.Blank();
      if te == null {
        return Err(NullPointer);
      }
      p.tevent := te;
      var thrown := p.SetLabel(lbl);
      if thrown.Some? {
        return Err(thrown.value);
      }
      p.SetContext(ct);
      if bd == null {
        p.body := new TermNode(EmptyBody);
      } else {
        p.body := bd;
      }
      r := Ok(p);
    }

    /**
      `getArity`: `getTerm` answers null outside positions 0 to n - 1, and
      answers every one of them once trigger and body are set.
     */
    function GetArity(): (n: nat)
      reads this
      ensures n == 4
      ensures forall i :: GetTerm(i).Some? ==> 0 <= i < n
      ensures Complete() ==> forall i :: 0 <= i < n ==> GetTerm(i).Some?
    {
      4
    }

    /**
      `getTerm`: label, trigger, context, body; a missing label reads as
      `nolabel` and a missing context as `true`, while a missing trigger or
      body reads as null; any other position is null.
     */
    function GetTerm(i: int): (r: Option<Term>)
      reads this
      ensures !(0 <= i < 4) ==> r.None?
      ensures i == 0 ==> r == Some(if planLabel == null then NoLabel else planLabel.term)
      ensures i == 1 ==> r == NodeTerm(tevent)
      ensures i == 2 ==> r == Some(if context == null then LTrue else context.term)
      ensures i == 3 ==> r == NodeTerm(body)
    {
      if i == 0 then Some(if planLabel == null then NoLabel else planLabel.term)
      else if i == 1 then NodeTerm(tevent)
      else if i == 2 then Some(if context == null then LTrue else context.term)
      else if i == 3 then NodeTerm(body)
      else None
    }

    /**
      `setTerm`: stores `t` at position `i` as it is (no normalisation of
      `true`, and null is stored too); any other position is ignored.
      Reading the position back gives `t`, or for null the default of a
      label or context, or null for a trigger or body.
     */
    method SetTerm(i: int, t: TermNode?)
      requires Valid() && Castable(i, t)
      modifies this`planLabel, this`tevent, this`context, this`body
      ensures Valid()
      ensures i == 0 ==> planLabel == t
      ensures i == 1 ==> tevent == t
      ensures i == 2 ==> context == t
      ensures i == 3 ==> body == t
      ensures i != 0 ==> planLabel == old(planLabel)
      ensures i != 1 ==> tevent == old(tevent)
      ensures i != 2 ==> context == old(context)
      ensures i != 3 ==> body == old(body)
      ensures 0 <= i < 4 ==>
                GetTerm(i) == (if t != null then Some(t.term)
                               else if i == 0 then Some(NoLabel)
                               else if i == 2 then Some(LTrue)
                               else None)
      ensures forall j :: j != i ==> GetTerm(j) == old(GetTerm(j))
    {
      if i == 0 {
        planLabel := t;
      } else if i == 1 {
        tevent := t;
      } else if i == 2 {
        context := t;
      } else if i == 3 {
        body := t;
      }
    }

    /**
      `setLabel`: stores the label, then runs each of its annotations
      through `ScanAnnot`, adding to what the plan already holds. An
      annotation that raises ends the scan with what was done so far.
     */
    method SetLabel(p: TermNode?) returns (thrown: Option<JavaException>)
      requires Valid()
      requires p != null ==> p.term.Pred?
      modifies this`planLabel, this`conflicts, this`hasBreakpoint, this`isAllUnifs
      ensures Valid() && planLabel == p
      ensures var run := ScanLabel(old(Scan()), NodeTerm(p));
              Scan() == run.state && thrown == ThrownBy(run)
    {
      thrown := None;
      planLabel := p;
      if p != null && p.term.Pred? && p.term.annots != [] {
        thrown := ScanAnnotations(p.term.annots);
      }
    }

    /** The annotation loop of `setLabel`, stopping at the first annotation that raises. */
    method ScanAnnotations(annots: seq<Term>) returns (thrown: Option<JavaException>)
      modifies this`conflicts, this`hasBreakpoint, this`isAllUnifs
      ensures var run := ScanAnnots(old(Scan()), annots);
              Scan() == run.state && thrown == ThrownBy(run)
    {
      thrown := None;
      ghost var s0 := old(Scan());
      var i := 0;
      while i < |annots|
        invariant 0 <= i <= |annots|
        invariant thrown.None?
        invariant ScanAnnots(s0, annots[..i]) == Normal(Scan())
      {
        var t := annots[i];
        assert annots[..i + 1][..i] == annots[..i];
        if t == TAtomic {
          conflicts := conflicts + {Some(Conflict("_", Atomic))};
        }
        if t == TBreakPoint {
          hasBreakpoint := true;
        }
        if t == TAllUnifs {
          isAllUnifs := true;
        }
        if t.Pred? && t.functor == FConflict {
          thrown := ProcessConflictSet(t);
          if thrown.Some? {
            ScanAbruptIsFinal(s0, annots, i + 1);
            return;
          }
        }
        i := i + 1;
      }
      assert annots[..i] == annots;
    }

    /**
      `processConflictSet`: adds the descriptor of the first argument of
      a `conflict(...)` annotation, or of each element when it is a list.
     */
    method ProcessConflictSet(pred: Term) returns (thrown: Option<JavaException>)
      requires pred.Pred?
      modifies this`conflicts
      ensures var run := AddConflicts(old(conflicts), ConflictElems(pred));
              conflicts == run.state && thrown == ThrownBy(run)
    {
      thrown := None;
      if |pred.args| > 0 {
        if pred.args[0].ListTerm? {
          var elems := pred.args[0].elems;
          var i := 0;
          while i < |elems|
            invariant 0 <= i <= |elems|
            invariant AddConflicts(old(conflicts), elems[..i]) == Normal(conflicts)
          {
            assert elems[..i + 1][..i] == elems[..i];
            var d := ToConflict(elems[i]);
            if d.Err? {
              AddConflictsAbruptIsFinal(old(conflicts), elems, i + 1);
              return Some(d.error);
            }
            conflicts := conflicts + {d.value};
            i := i + 1;
          }
          assert elems[..i] == elems;
        } else {
          var d := ToConflict(pred.args[0]);
          assert [pred.args[0]][..0] == [];
          if d.Err? {
            return Some(d.error);
          }
          conflicts := conflicts + {d.value};
        }
      }
    }

    /** `addConflictingPlan`: allocates the registry if needed and records `id` in it. */
    method AddConflictingPlan(id: string)
      modifies this`conflictingPlans
      ensures conflictingPlans == Some((if old(conflictingPlans).None? then {} else old(conflictingPlans).value) + {id})
      ensures ConflictsWith(id) && HasConflictingPlans()
    {
      if conflictingPlans.None? {
        conflictingPlans := Some({});
      }
      conflictingPlans := Some(conflictingPlans.value + {id});
    }

    /** `removeConflictingPlan`: forgets `id` and no other; the registry must have been allocated. */
    method RemoveConflictingPlan(id: string)
      requires conflictingPlans.Some?
      modifies this`conflictingPlans
      ensures conflictingPlans == Some(old(conflictingPlans).value - {id})
      ensures !ConflictsWith(id)
      ensures forall other :: other != id ==> (ConflictsWith(other) <==> old(ConflictsWith(other)))
    {
      conflictingPlans := Some(conflictingPlans.value - {id});
    }

    /** `hasConflictingPlans`: the registry is allocated and some identifier is recorded in it. */
    function HasConflictingPlans(): (r: bool)
      reads this
      ensures r <==> conflictingPlans.Some? && exists id :: ConflictsWith(id)
    {
      var has := conflictingPlans.Some? && conflictingPlans.value != {};
      if has then
        var id :| id in conflictingPlans.value;
        assert ConflictsWith(id);
        true
      else false
    }

    /** `conflictsWith`: whether `id` is recorded; the registry must have been allocated. */
    function ConflictsWith(id: string): (r: bool)
      reads this
      requires conflictingPlans.Some?
      ensures r <==> id in conflictingPlans.value
    {
      id in conflictingPlans.value
    }

    /** `containsConflict`: membership of a descriptor (or null) in the conflict set. */
    function ContainsConflict(c: Option<Conflict>): (r: bool)
      reads this
      ensures r <==> c in conflicts
    {
      c in conflicts
    }

    /**
      `setContext`: the `true` literal is stored as no context, so reading
      position 2 back gives what was set, or `true` for null.
     */
    method SetContext(ct: TermNode?)
      requires ct != null ==> IsFormula(ct.term)
      modifies this`context
      ensures context == (if ct != null && ct.term == LTrue then null else ct)
      ensures GetTerm(2) == Some(if ct == null then LTrue else ct.term)
    {
      context := ct;
      if ct != null && ct.term == LTrue {
        context := null;
      }
    }

    method SetAsPlanTerm(b: bool)
      modifies this`isTerm
      ensures isTerm == b
    {
      isTerm := b;
    }

    /** `isAtomic`: always false, since nothing raises the flag. */
    function IsAtomic(): (r: bool)
      reads this
      requires Valid()
      ensures !r
    {
      isAtomic
    }

    /**
      `equals`: the same object, or another plan whose trigger, context and
      body match under `PlanEquals`. A null trigger or body of this plan is
      dereferenced when the comparison reaches it, and raises; a null one of
      the other plan just compares unequal.
     */
    function Equals(o: Plan?): (r: Result<bool>)
      reads this, o
      ensures r.Err? ==> r.error == NullPointer
      ensures r.Err? <==>
                o != null && o != this &&
                !(context == null && o.context != null) &&
                !(context != null && o.context != null && context.term != o.context.term) &&
                (tevent == null || (o.tevent != null && tevent.term == o.tevent.term && body == null))
      ensures Complete() ==> r == Ok(o != null && o.Complete() && PlanEquals(View(), o.View()))
      ensures !Complete() && r.Ok? ==> (r.value <==> o == this)
    {
      if o == this then Ok(true)
      else if o == null then Ok(false)
      else if context == null && o.context != null then Ok(false)
      else if context != null && o.context != null && context.term != o.context.term then Ok(false)
      else if tevent == null then Err(NullPointer)
      else if o.tevent == null || tevent.term != o.tevent.term then Ok(false)
      else if body == null then Err(NullPointer)
      else Ok(o.body != null && body.term == o.body.term)
    }

    /**
      The loop the three copies share: clone each descriptor into a new
      set. A null element is dereferenced and raises.
     */
    method CopyConflicts() returns (r: Result<ConflictSet>)
      ensures r.Ok? <==> None !in conflicts
      ensures r.Ok? ==> r.value == conflicts
      ensures r.Err? ==> r.error == NullPointer
    {
      var rest := conflicts;
      var copy: ConflictSet := {};
      while rest != {}
        invariant copy + rest == conflicts
        invariant None !in copy
        decreases |rest|
      {
        var c :| c in rest;
        if c.None? {
          return Err(NullPointer);
        }
        copy := copy + {Some(Conflicts.Clone(c.value))};
        rest := rest - {c};
      }
      r := Ok(copy);
    }

    /**
      `capply(u)`: a new plan with `u` applied to every sub-term; flags
      come along only with a label, the registry does not. A null
      descriptor, trigger or body is dereferenced and raises.
     */
    method Capply(u: Unifier) returns (r: Result<Plan>)
      requires Valid()
      ensures r.Ok? <==> None !in conflicts && Complete()
      ensures r.Err? ==> r.error == NullPointer
      ensures r.Ok? ==> fresh(r.value) && r.value.Valid() && r.value.Complete()
      ensures r.Ok? ==> r.value.View() == CapplyOf(View(), u)
      ensures r.Ok? ==> fresh(r.value.tevent) && fresh(r.value.body)
      ensures r.Ok? && planLabel != null ==> fresh(r.value.planLabel)
      ensures r.Ok? && context != null ==> fresh(r.value.context)
    {
      var lb: TermNode? := null;
      if planLabel != null {
        lb := new TermNode(Subst(planLabel.term, u));
      }
      var cs := CopyConflicts();
      if cs.Err? {
        return Err(cs.error);
      }
      if tevent == null {
        return Err(NullPointer);
      }
      var te := new TermNode(Subst(tevent.term, u));
      var ct: TermNode? := null;
      if context != null {
        ct := new TermNode(Subst(context.term, u));
      }
      if body == null {
        return Err(NullPointer);
      }
      var bd := new TermNode(Subst(body.term, u));
      var p := new Plan.Assemble(lb, te, ct, bd, isAtomic, hasBreakpoint, isAllUnifs, isTerm, cs.value);
      r := Ok(p);
    }

    /**
      `clone`: a new plan holding fresh copies of every sub-term, equal to
      this one both ways. A null descriptor, trigger or body raises.
     */
    method Clone() returns (r: Result<Plan>)
      requires Valid()
      ensures r.Ok? <==> None !in conflicts && Complete()
      ensures r.Err? ==> r.error == NullPointer
      ensures r.Ok? ==> fresh(r.value) && r.value.Valid() && r.value.Complete()
      ensures r.Ok? ==> r.value.View() == CopyOf(View())
      ensures r.Ok? ==> fresh(r.value.tevent) && fresh(r.value.body)
      ensures r.Ok? && planLabel != null ==> fresh(r.value.planLabel)
      ensures r.Ok? && context != null ==> fresh(r.value.context)
      ensures r.Ok? ==> r.value.Equals(this) == Ok(true) && Equals(r.value) == Ok(true)
    {
      var lb: TermNode? := null;
      if planLabel != null {
        lb := new TermNode(planLabel.term);
      }
      var cs := CopyConflicts();
      if cs.Err? {
        return Err(cs.error);
      }
      if tevent == null {
        return Err(NullPointer);
      }
      var te := new TermNode(tevent.term);
      var ct: TermNode? := null;
      if context != null {
        ct := new TermNode(context.term);
      }
      if body == null {
        return Err(NullPointer);
      }
      var bd := new TermNode(body.term);
      var p := new Plan.Assemble(lb, te, ct, bd, isAtomic, hasBreakpoint, isAllUnifs, isTerm, cs.value);
      CopyIsEqual(View());
      r := Ok(p);
    }

    /**
      `cloneOnlyBody`: like `clone`, but the new plan shares this plan's
      label and context nodes; only trigger and body are copied.
     */
    method CloneOnlyBody() returns (r: Result<Plan>)
      requires Valid()
      ensures r.Ok? <==> None !in conflicts && Complete()
      ensures r.Err? ==> r.error == NullPointer
      ensures r.Ok? ==> fresh(r.value) && r.value.Valid() && r.value.Complete()
      ensures r.Ok? ==> r.value.View() == CopyOf(View())
      ensures r.Ok? ==> r.value.planLabel == planLabel && r.value.context == context
      ensures r.Ok? ==> fresh(r.value.tevent) && fresh(r.value.body)
    {
      var cs := CopyConflicts();
      if cs.Err? {
        return Err(cs.error);
      }
      if tevent == null || body == null {
        return Err(NullPointer);
      }
      var te := new TermNode(tevent.term);
      var bd := new TermNode(body.term);
      var p := new Plan.Assemble(planLabel, te, context, bd, isAtomic, hasBreakpoint, isAllUnifs, isTerm, cs.value);
      r := Ok(p);
    }

    /**
      `toASString`: braces for a plan used as a term, a final period
      otherwise, and `@` after the opening exactly when there is a label.
      A null trigger prints as `null`; a null body is dereferenced and
      raises.
     */
    function ToASString(): (r: Result<string>)
      reads this
      requires Valid()
      ensures r.Err? <==> body == null
      ensures r.Err? ==> r.error == NullPointer
      ensures Complete() ==> r == Ok(Render(View()))
      ensures tevent == null && body != null ==>
                r == Ok(Layout(PiecesFrom(isTerm, NodeTerm(planLabel), "null", NodeTerm(context), body.term)))
      ensures r.Ok? && isTerm ==> |r.value| >= 4 && r.value[..2] == "{ " && r.value[|r.value| - 2..] == " }"
      ensures r.Ok? && !isTerm ==> |r.value| >= 1 && r.value[|r.value| - 1] == '.'
      ensures r.Ok? ==> |r.value| > (if isTerm then 2 else 0) &&
                        (r.value[if isTerm then 2 else 0] == '@' <==> planLabel != null)
    {
      if body == null then Err(NullPointer)
      else
        var p := PiecesFrom(isTerm, NodeTerm(planLabel), if tevent == null then "null" else Show(tevent.term),
                            NodeTerm(context), body.term);
        LayoutFrame(p);
        LayoutLabelMarker(p);
        Ok(Layout(p))
    }
  }
}

=== FILE: plan_view.dfy ===
/**
  A plan's state as a value, and the specification functions of the plan
  operations that do not change it: equality, the three copies and the
  AgentSpeak text.
 */
module PlanViews {
  import opened Lang
  import opened Terms
  import opened PlanAnnotations

  /** Every field of a plan, with each sub-term read through its node (`None` for null). */
  datatype PlanView = PlanView(
    planLabel: Option<Term>,
    trigger: Term,
    context: Option<Term>,
    body: Term,
    isAtomic: bool,
    hasBreakpoint: bool,
    isAllUnifs: bool,
    isTerm: bool,
    conflicts: ConflictSet,
    conflictingPlans: Option<set<string>>)

  /**
    `equals` between two distinct plans: only trigger, context and body
    count. A plan without context never equals one with a context, two
    contexts must be equal, but a plan WITH a context is not compared on
    it when the other has none.
   */
  predicate PlanEquals(a: PlanView, b: PlanView) {
    (a.context.None? ==> b.context.None?) &&
    (a.context.Some? && b.context.Some? ==> a.context == b.context) &&
    a.trigger == b.trigger && a.body == b.body
  }

  /** Label, flags, conflict set and registry never affect equality. */
  lemma PlanEqualsIgnoresBookkeeping(a: PlanView, b: PlanView, a2: PlanView, b2: PlanView)
    requires a2.trigger == a.trigger && a2.context == a.context && a2.body == a.body
    requires b2.trigger == b.trigger && b2.context == b.context && b2.body == b.body
    ensures PlanEquals(a2, b2) == PlanEquals(a, b)
  {
  }

  /** Every plan equals itself. */
  lemma PlanEqualsReflexive(a: PlanView)
    ensures PlanEquals(a, a)
  {
  }

  /**
    Equality is symmetric except in one case: exactly when the first plan
    has a context, the second has none, and triggers and bodies agree, the
    first equals the second but not the other way round.
   */
  lemma PlanEqualsAsymmetry(a: PlanView, b: PlanView)
    ensures (PlanEquals(a, b) && !PlanEquals(b, a)) <==>
            (a.context.Some? && b.context.None? && a.trigger == b.trigger && a.body == b.body)
    ensures a.context.Some? == b.context.Some? ==> (PlanEquals(a, b) <==> PlanEquals(b, a))
  {
  }

  /** What `clone` and `cloneOnlyBody` build: flags only with a label, the same conflicts, no registry. */
  function CopyOf(v: PlanView): (c: PlanView)
    ensures c.conflicts == v.conflicts && c.isTerm == v.isTerm && c.conflictingPlans.None?
    ensures c.planLabel.None? ==> !c.isAtomic && !c.hasBreakpoint && !c.isAllUnifs
  {
    v.(isAtomic := v.planLabel.Some? && v.isAtomic,
       hasBreakpoint := v.planLabel.Some? && v.hasBreakpoint,
       isAllUnifs := v.planLabel.Some? && v.isAllUnifs,
       conflictingPlans := None)
  }

  function SubstOpt(t: Option<Term>, u: Unifier): Option<Term> {
    if t.None? then None else Some(Subst(t.value, u))
  }

  /** What `capply(u)` builds: a copy whose label, trigger, context and body have `u` applied. */
  function CapplyOf(v: PlanView, u: Unifier): PlanView {
    CopyOf(v).(planLabel := SubstOpt(v.planLabel, u), trigger := Subst(v.trigger, u),
               context := SubstOpt(v.context, u), body := Subst(v.body, u))
  }

  /** A copy equals its original, in both directions. */
  lemma CopyIsEqual(v: PlanView)
    ensures PlanEquals(CopyOf(v), v) && PlanEquals(v, CopyOf(v))
  {
  }

  /** Copying a copy changes nothing more. */
  lemma CopyIdempotent(v: PlanView)
    ensures CopyOf(CopyOf(v)) == CopyOf(v)
  {
  }

  /** `capply` with the empty substitution builds exactly what `clone` builds. */
  lemma CapplyEmptyIsCopy(v: PlanView)
    ensures CapplyOf(v, map[]) == CopyOf(v)
  {
    SubstEmpty(v.trigger);
    SubstEmpty(v.body);
    if v.planLabel.Some? { SubstEmpty(v.planLabel.value); }
    if v.context.Some? { SubstEmpty(v.context.value); }
  }

  /**
    The printed pieces of a plan's text: whether it is used as a term, the
    label, the trigger, the context (if any) and the body (if not empty).
   */
  datatype Pieces = Pieces(isTerm: bool, lbl: Option<string>, trig: string, ctx: Option<string>, body: Option<string>)

  function Opening(p: Pieces): string {
    if p.isTerm then "{ " else ""
  }

  function Closing(p: Pieces): string {
    if p.isTerm then " }" else "."
  }

  function LabelPart(p: Pieces): string {
    if p.lbl.None? then "" else "@" + p.lbl.value + " "
  }

  function ContextPart(p: Pieces): string {
    if p.ctx.None? then "" else " : " + p.ctx.value
  }

  function BodyPart(p: Pieces): string {
    if p.body.None? then "" else " <- " + p.body.value
  }

  /** `[@label ]trigger[ : context][ <- body]`, then `.`, or inside `{ ` and ` }` for a plan used as a term. */
  function Layout(p: Pieces): string {
    Opening(p) + LabelPart(p) + p.trig + ContextPart(p) + BodyPart(p) + Closing(p)
  }

  /** The pieces of a plan whose trigger prints as `trig`: each present sub-term printed, an empty body left out. */
  function PiecesFrom(isTerm: bool, lbl: Option<Term>, trig: string, ctx: Option<Term>, body: Term): Pieces {
    Pieces(isTerm,
           if lbl.None? then None else Some(Show(lbl.value)),
           trig,
           if ctx.None? then None else Some(Show(ctx.value)),
           if IsEmptyBody(body) then None else Some(Show(body)))
  }

  /** The pieces of a plan's text. */
  function PiecesOf(v: PlanView): (p: Pieces)
    ensures p.isTerm == v.isTerm
    ensures p.lbl.Some? <==> v.planLabel.Some?
    ensures p.ctx.Some? <==> v.context.Some?
    ensures p.body.Some? <==> !IsEmptyBody(v.body)
    ensures v.trigger.Trigger? ==> |p.trig| > 0 && p.trig[0] != '@'
  {
    PiecesFrom(v.isTerm, v.planLabel, Show(v.trigger), v.context, v.body)
  }

  /** `toASString`. */
  function Render(v: PlanView): string {
    Layout(PiecesOf(v))
  }

  /** A plan used as a term is wrapped in braces; any other plan ends with a period. */
  lemma LayoutFrame(p: Pieces)
    ensures p.isTerm ==> |Layout(p)| >= 4 && Layout(p)[..2] == "{ " && Layout(p)[|Layout(p)| - 2..] == " }"
    ensures !p.isTerm ==> |Layout(p)| >= 1 && Layout(p)[|Layout(p)| - 1] == '.'
  {
    var o, c := Opening(p), Closing(p);
    var mid := LabelPart(p) + p.trig + ContextPart(p) + BodyPart(p);
    assert Layout(p) == o + mid + c;
    if p.isTerm {
      assert (o + mid + c)[..2] == o;
      assert (o + mid + c)[|o + mid + c| - 2..] == c;
    }
  }

  /** When the trigger text does not start with `@`, the text shows `@` right after the opening exactly when there is a label. */
  lemma LayoutLabelMarker(p: Pieces)
    requires |p.trig| > 0 && p.trig[0] != '@'
    ensures |Layout(p)| > |Opening(p)|
    ensures Layout(p)[|Opening(p)|] == '@' <==> p.lbl.Some?
  {
    var o, l := Opening(p), LabelPart(p);
    var rest := ContextPart(p) + BodyPart(p) + Closing(p);
    assert Layout(p) == (o + l) + (p.trig + rest);
    if p.lbl.Some? {
      assert (o + l)[|o|] == l[0] == '@';
    } else {
      assert o + l == o;
      assert (p.trig + rest)[0] == p.trig[0];
    }
  }

  /** A context shows as ` : context` right after the trigger. */
  lemma LayoutContext(p: Pieces, c: string)
    requires p.ctx == Some(c)
    ensures Layout(p) == Opening(p) + LabelPart(p) + p.trig + " : " + c + BodyPart(p) + Closing(p)
  {
    var front := Opening(p) + LabelPart(p) + p.trig;
    assert front + ContextPart(p) == front + " : " + c;
  }

  /** A body shows as ` <- body` right before the terminator. */
  lemma LayoutBody(p: Pieces, b: string)
    requires p.body == Some(b)
    ensures Layout(p) == Opening(p) + LabelPart(p) + p.trig + ContextPart(p) + " <- " + b + Closing(p)
  {
    var front := Opening(p) + LabelPart(p) + p.trig + ContextPart(p);
    assert front + BodyPart(p) == front + " <- " + b;
  }

  /** Giving a plan a context, or a non-empty body, changes only that piece of its text. */
  lemma PiecesOfUpdate(v: PlanView, c: Term, steps: seq<Term>)
    requires steps != []
    ensures PiecesOf(v.(context := None)) == PiecesOf(v).(ctx := None)
    ensures PiecesOf(v.(context := Some(c))) == PiecesOf(v).(ctx := Some(Show(c)))
    ensures PiecesOf(v.(body := Body([]))) == PiecesOf(v).(body := None)
    ensures PiecesOf(v.(body := Body(steps))) == PiecesOf(v).(body := Some(Show(Body(steps))))
  {
  }
}

=== FILE: terms.dfy ===
/**
  The AgentSpeak terms a plan is built from. The term classes themselves
  (Pred, Trigger, LogicalFormula, PlanBody and their substitution, copy,
  equality and printing code) are not part of this model: here they are
  one closed datatype whose operations are structural.

  Convention: inside a label's annotations and inside lists, a structure
  with neither arguments nor annotations is always written `Atom`. A plan
  label is always a `Pred`, with or without arguments and annotations.
 */
module Terms {

  /** The operator of a trigger event: `+`, `-` or `^`. */
  datatype TEOperator = Add | Del | GoalState

  /** The kind of a trigger event: a belief, an achievement goal `!` or a test goal `?`. */
  datatype TEType = Belief | Achieve | Test

  datatype Term =
    | Atom(functor: string)
    | Str(text: string)
    | Num(value: int)
    | Var(name: string)
    | UnnamedVar
    | Pred(functor: string, args: seq<Term>, annots: seq<Term>)
    | ListTerm(elems: seq<Term>)
    | LogExpr(op: string, operands: seq<Term>)
    | Trigger(operator: TEOperator, kind: TEType, literal: Term)
    | Body(steps: seq<Term>)

  /** The annotation atoms and the functor that a plan label is scanned for. */
  const TAtomic: Term := Atom("atomic")
  const TBreakPoint: Term := Atom("breakpoint")
  const TAllUnifs: Term := Atom("all_unifs")
  const FConflict: string := "conflict"

  /** What position 0 shows for a plan without a label. */
  const NoLabel: Term := Atom("nolabel")

  /** The `true` literal; an absent context reads as this. */
  const LTrue: Term := Atom("true")

  /** The body a plan gets when none is given. */
  const EmptyBody: Term := Body([])

  /** Terms that can stand where a logical formula is expected (a plan context). */
  predicate IsFormula(t: Term) {
    t.Atom? || t.Pred? || t.Var? || t.UnnamedVar? || t.LogExpr?
  }

  predicate IsEmptyBody(t: Term) {
    t.Body? && t.steps == []
  }

  /** A substitution: values for named variables. */
  type Unifier = map<string, Term>

  /**
    `capply`: the term with every bound named variable replaced by its value.
    Substitution never changes what kind of term a non-variable is, and
    leaves an empty body empty.
   */
  function Subst(t: Term, u: Unifier): (r: Term)
    ensures !t.Var? ==> r.Atom? == t.Atom? && r.Pred? == t.Pred? && r.Trigger? == t.Trigger? && r.Body? == t.Body?
    ensures IsEmptyBody(t) ==> r == t
    ensures t.Var? && t.name !in u ==> r == t
  {
    match t
    case Var(x) => if x in u then u[x] else t
    case Pred(f, args, annots) => Pred(f, SubstAll(args, u), SubstAll(annots, u))
    case ListTerm(es) => ListTerm(SubstAll(es, u))
    case LogExpr(op, xs) => LogExpr(op, SubstAll(xs, u))
    case Trigger(o, k, lit) => Trigger(o, k, Subst(lit, u))
    case Body(steps) => Body(SubstAll(steps, u))
    case _ => t
  }

  /** `Subst` applied to each term of a sequence. */
  function SubstAll(ts: seq<Term>, u: Unifier): (rs: seq<Term>)
    ensures |rs| == |ts|
  {
    if ts == [] then [] else [Subst(ts[0], u)] + SubstAll(ts[1..], u)
  }

  /** Applying the empty substitution gives the term back unchanged. */
  lemma {:induction false} SubstEmpty(t: Term)
    ensures Subst(t, map[]) == t
  {
    match t
    case Pred(f, args, annots) =>
      SubstAllEmpty(args);
      SubstAllEmpty(annots);
    case ListTerm(es) => SubstAllEmpty(es);
    case LogExpr(op, xs) => SubstAllEmpty(xs);
    case Trigger(o, k, lit) => SubstEmpty(lit);
    case Body(steps) => SubstAllEmpty(steps);
    case _ =>
  }

  lemma {:induction false} SubstAllEmpty(ts: seq<Term>)
    ensures SubstAll(ts, map[]) == ts
  {
    if ts != [] {
      SubstEmpty(ts[0]);
      SubstAllEmpty(ts[1..]);
    }
  }

  function OperatorText(o: TEOperator): string {
    match o
    case Add => "+"
    case Del => "-"
    case GoalState => "^"
  }

  function TypeText(k: TEType): string {
    match k
    case Belief => ""
    case Achieve => "!"
    case Test => "?"
  }

  function DigitsOf(n: nat): (s: string)
    ensures |s| > 0
  {
    var d := ['0' + (n % 10) as char];
    if n < 10 then d else DigitsOf(n / 10) + d
  }

  function IntText(n: int): string {
    if n < 0 then "-" + DigitsOf(-n) else DigitsOf(n)
  }

  /**
    The AgentSpeak text of a term. A trigger's text starts with its
    operator, which is never `@`.
   */
  function Show(t: Term): (s: string)
    ensures t.Trigger? ==> |s| > 0 && s[0] in {'+', '-', '^'}
  {
    match t
    case Atom(f) => f
    case Str(s) => "\"" + s + "\""
    case Num(n) => IntText(n)
    case Var(x) => x
    case UnnamedVar => "_"
    case Pred(f, args, annots) =>
      f + (if args == [] then "" else "(" + Join(args, ",") + ")")
        + (if annots == [] then "" else "[" + Join(annots, ",") + "]")
    case ListTerm(es) => "[" + Join(es, ",") + "]"
    case LogExpr(op, xs) => "(" + Join(xs, " " + op + " ") + ")"
    case Trigger(o, k, lit) => OperatorText(o) + TypeText(k) + Show(lit)
    case Body(steps) => Join(steps, "; ")
  }

  function Join(ts: seq<Term>, sep: string): string {
    if ts == [] then ""
    else if |ts| == 1 then Show(ts[0])
    else Show(ts[0]) + sep + Join(ts[1..], sep)
  }
}
